=== FILE: README.md ===
# Conversation history manager, modelled in Dafny

This project models the conversation-history manager of an LLM research agent
(`src/utils/conversation_manager.py`). The manager keeps a rolling window of
chat messages and a running extractive summary of the messages folded out of
that window. It has two pure string reducers:

- `truncate_content` keeps a proportional head and tail around a truncation notice.
- `_create_summary_for_content` keeps a fixed 200-character head and tail around
  a summary marker. It is applied when an oversized message is added.

The model is functional. A manager is an immutable `State` (limits, window,
optional summary). `add_message`, the fold `_create_summary` and `clear` become
functions from state to state. The readers are functions of the state, so they
cannot change it and repeated calls give identical results.

Files and modules:

- `py_seq.dfy` (`PySeq`): Python slice semantics (negative and out-of-range
  bounds, `x[-0:]`), `str.join` and `str.endswith`, over Dafny sequences.
- `content.dfy` (`Content`): default limits, markers, `TruncateContent`,
  `SummarizeContent`.
- `message.dfy` (`Messages`): the `Message` datatype (`System`, `Human`, `AI`,
  `Other`) and sums over message sequences.
- `manager.dfy` (`ConversationManager`): ingest, fold, add, readers, clear, stats.
- `properties.dfy` (`ManagerProperties`): properties of whole runs of adds, the
  payload bound, and reset.
- `scenarios.dfy` (`Scenarios`): concrete runs in the situations the unit tests
  set up, with the results the code produces.

## Choices where the sources disagree

The model follows the code wherever it differs from its unit tests or from a plain reading of its intent.

- An AI message without a name is labelled `None` in the summary. The message
  classes always carry a `name` attribute that defaults to `None`. So
  `getattr(msg, 'name', 'Assistant')` never falls back to `Assistant`, and the
  f-string prints `None`.
- A stored payload is not bounded by `max_content_length`. An oversized payload
  goes through `_create_summary_for_content`, which leaves anything up to 500
  characters unchanged. The real bound is the larger of the limit and 500
  (`IngestBound`). For example, a limit of 100 with a 200-character message
  stores all 200 characters. The unit test at
  tests/unit/utils/test_conversation_manager.py:61-71 expects a truncation
  notice there (`MidSizeMessageStoredWhole`).
- Summarizing keeps 200 characters at each end. The unit test at lines 174-175
  expects 400 (`LongPayloadKeepsTwoHundredAtEachEnd`).
- A fold never erases a non-empty summary. The previous summary always becomes
  the opening line, so there is at least one line. Only a present but empty
  summary can turn into `None` (`NewSummary`, `FoldSummaryNoneIff`).
- "Truncation returns the input unchanged exactly when it fits" holds for the
  branch taken, not for string equality. An over-long input that already has
  the head, notice, tail shape is returned equal to itself. The contract
  therefore states both branches, and `TruncateIdempotent` states the
  fixed-point behaviour.
- Python slices are modelled exactly rather than excluded. The quirks show up
  as stated results:
  - With `max_length` 0 or 1 the truncation prepends the notice to the whole content.
  - With `preserve_recent == 0` a fold keeps every message.
  - Dafny's `/` by 2 is floor division, like Python's `//`, also for negative numbers.

## Model

| member | source | states |
|---|---|---|
| `ConversationManager.New` | src/utils/conversation_manager.py:64-74 | A new manager keeps the given limits, returns no messages in either mode, and reports zero counts, no summary and the given thresholds. |
| `Messages.TotalContentLength` | src/utils/conversation_manager.py:208-211 | The sum of the payload lengths: 0 for no messages, the payload's length for one message, and at least every single payload. |
| `Messages.TotalContentLengthConcat` | src/utils/conversation_manager.py:208-211 | The total of a concatenation is the sum of the two totals. |
| `Content.TruncateContent` | src/utils/conversation_manager.py:25-50 | Content within the limit is returned as is. Otherwise, for a limit of at least 2, the result is the first and last `limit // 2` characters around the 25-character notice, of length `2*(limit//2) + 25 <= limit + 25`. For a limit of 0 or 1 it is the notice followed by the whole content. |
| `Content.TruncateIdempotent` | src/utils/conversation_manager.py:39-50 | With a limit of at least 2, truncating an already truncated string changes nothing. |
| `Content.TruncateTinyLimitGrows` | src/utils/conversation_manager.py:43-49 | With a limit of 0 or 1, a second truncation prepends a second notice, so the result keeps growing. |
| `Content.SummarizeContent` | src/utils/conversation_manager.py:142-162 | Up to 500 characters the payload is unchanged. Beyond that it becomes the first 200 characters, the 28-character marker and the last 200 characters: exactly 428 characters, strictly shorter than the input. The result is never longer than the input or 500. |
| `Content.SummarizeIdempotent` | src/utils/conversation_manager.py:152-162 | Summarizing a summarized payload changes nothing. |
| `Content.SummarizeChangesIff` | src/utils/conversation_manager.py:152-162 | Summarizing returns its input exactly when the input has at most 500 characters. |
| `Content.SummarizeKeepsOnlyWindow` | src/utils/conversation_manager.py:156-160 | In a summarized payload the characters right after the head and right before the tail are newlines, so only 200 characters survive at each end. |
| `ConversationManager.Ingest` | src/utils/conversation_manager.py:84-93 | Other-kind messages and payloads within the limit are stored as given. A longer System, Human or AI payload is replaced by its summary. The kind is kept, and Human and AI keep their name. |
| `ConversationManager.IngestUnchangedIff` | src/utils/conversation_manager.py:84-93 | Ingest leaves a message unchanged exactly when it is an other-kind message or its payload is at most the larger of the limit and 500. |
| `ConversationManager.IngestBound` | src/utils/conversation_manager.py:84-93 | A stored payload is never longer than the given one. For System, Human and AI it is at most the larger of the limit and 500. |
| `ConversationManager.Clip` | src/utils/conversation_manager.py:129-132 | A folded payload of at most 200 characters is kept whole. A longer one becomes its first 200 characters followed by `...`. |
| `ConversationManager.Label` | src/utils/conversation_manager.py:133 | An AI message is labelled by its name, and a missing name prints as `None`. |
| `ConversationManager.SummaryLineShape` | src/utils/conversation_manager.py:129-134 | A Human line is exactly `User: ` followed by the clipped payload, and an AI line is exactly its label, `: ` and the clipped payload: the prefix and suffix are stated, and the length leaves nothing between them. |
| `ConversationManager.SummaryLine` | src/utils/conversation_manager.py:129-134 | A summary line is never longer than its label, `: `, 200 payload characters and the ellipsis, whatever the payload's length. |
| `ConversationManager.SummaryLines` | src/utils/conversation_manager.py:125-134 | The fold loop gives at most one line per folded message. |
| `Messages.DialogueConcat` | src/utils/conversation_manager.py:125-134 | Selecting the Human and AI messages of a concatenation selects them from each part, in order. |
| `ConversationManager.SummaryLinesOfDialogue` | src/utils/conversation_manager.py:125-134 | The fold loop, which skips System and other messages, yields exactly one line per Human or AI message, in order. Each line is that message's `User:` or name-labelled line. |
| `ConversationManager.SummaryLinesConcat` | src/utils/conversation_manager.py:125-134 | The lines of a concatenation of messages are the concatenated lines. |
| `ConversationManager.NewSummaryIsJoin` | src/utils/conversation_manager.py:120-137 | The summary is the newline join of the optional `Previous conversation summary: ` line followed by the line of every folded Human or AI message, in order. It is `None` when there are no lines. |
| `ConversationManager.NewSummarySplit` | src/utils/conversation_manager.py:120-137 | Without a previous summary, folding two batches that each hold a Human or AI message gives the two batches' summaries joined by one newline. |
| `ConversationManager.NewSummary` | src/utils/conversation_manager.py:120-137 | The summary is `None` exactly when there is no truthy previous summary and no Human or AI message was folded. A new summary is never empty. A truthy previous summary is kept as the prefixed opening line. The first dialogue line opens the summary when there is no previous one, and the last dialogue line ends it. |
| `ConversationManager.FoldKeepsLastN` | src/utils/conversation_manager.py:112-117 | With `preserve_recent >= 1` the window after a fold, whether or not it fires, is the last `preserve_recent` messages. |
| `ConversationManager.Fold` | src/utils/conversation_manager.py:105-138 | No-op when the window has at most `preserve_recent` messages. Otherwise the window becomes exactly the last `preserve_recent` messages, in order, and the summary is computed from the folded prefix. With `preserve_recent == 0` every message stays. |
| `ConversationManager.AddMessage` | src/utils/conversation_manager.py:76-103 | With `preserve_recent >= 1`, the window after an add is the last `preserve_recent` of the old window plus the ingested message. This holds whether or not the pre-append fold ran. |
| `ConversationManager.AddMessageWindow` | src/utils/conversation_manager.py:96-103 | With `preserve_recent >= 1`, from any prior state, the window afterwards holds between 1 and `preserve_recent` messages, and its last message is the ingested one. |
| `ConversationManager.AddMessageZeroPreserve` | src/utils/conversation_manager.py:99-117 | With `preserve_recent == 0` an add only appends: the window is never trimmed. |
| `ConversationManager.AddMessageKeepsSummary` | src/utils/conversation_manager.py:96-137 | An add never turns a non-empty summary into no summary. |
| `ConversationManager.AddMessageWithoutFold` | src/utils/conversation_manager.py:95-103 | While the window holds fewer than `preserve_recent` messages, an add appends the ingested message and changes nothing else, whatever `max_messages` is: the pre-append fold finds nothing to fold. |
| `ConversationManager.GetMessages` | src/utils/conversation_manager.py:164-179 | The window is always the tail of the result. Exactly in summary mode with a non-empty summary there is one extra first message: a System message whose text is `Conversation Summary:\n` followed by the summary, so the summary can be read back from it. |
| `ConversationManager.GetRecentMessages` | src/utils/conversation_manager.py:181-191 | The result is the last `min(count, len)` messages of the window, in order, or empty when `count <= 0`. |
| `ConversationManager.GetConversationStats` | src/utils/conversation_manager.py:201-220 | `total_messages` is the number of messages `get_messages` returns without summary mode. `has_summary` is true exactly when a summary is present. `summary_length` is 0 exactly when the summary is absent or empty, and otherwise is the length of the summary-mode header message minus the header. `total_content_length` is the sum of the payload lengths of the messages `get_messages` returns without summary mode (`TotalContentLength`), so 0 for an empty window and at least every single payload. The two thresholds are the configured `max_messages` and `preserve_recent`. |
| `ManagerProperties.StatsAfterPlainAdd` | src/utils/conversation_manager.py:95-103 | While the window holds fewer than `preserve_recent` messages, an add raises `total_messages` by one and `total_content_length` by the ingested payload's length, and leaves the summary counters and thresholds unchanged. |
| `ConversationManager.Clear` | src/utils/conversation_manager.py:193-198 | A cleared manager is `New(s.config)`: no messages, no summary, the same limits. |
| `ManagerProperties.ClearResets` | src/utils/conversation_manager.py:193-198 | Clearing gives a fresh manager with the same limits. Clearing is idempotent. A cleared manager reads as empty in both modes and has no summary and no content. |
| `ManagerProperties.AddAllWindow` | src/utils/conversation_manager.py:96-138 | After any run of adds, the window is exactly the last `preserve_recent` messages of everything stored, ingested and in order. |
| `ManagerProperties.FreshWindow` | src/utils/conversation_manager.py:64-103 | A fresh manager fed any messages holds the last `preserve_recent` of them, ingested. |
| `ManagerProperties.AddMessageSteadyState` | src/utils/conversation_manager.py:96-138 | Once the window holds `preserve_recent` messages, each add folds exactly the oldest message and appends the new one, whatever `max_messages` is. |
| `ManagerProperties.AddMessageSummary` | src/utils/conversation_manager.py:95-137 | In any state with at most `preserve_recent` messages, an add changes the summary only when the window is full, and then to the summary of folding the oldest message. |
| `ManagerProperties.NewSummaryOfOneMessage` | src/utils/conversation_manager.py:120-137 | Folding one Human or AI message appends its line after the previous summary's line. Folding one System or other message leaves only the previous line, or no summary. |
| `ManagerProperties.RecentAfterRun` | src/utils/conversation_manager.py:181-191 | After any run of adds, the last `count <= preserve_recent` messages are the last `count` of everything stored. |
| `ManagerProperties.RecentAfterAdd` | src/utils/conversation_manager.py:99-103 | The single most recent message after an add is the ingested message. |
| `ManagerProperties.AddMessagePreservesBound` | src/utils/conversation_manager.py:84-103 | If every stored System, Human and AI payload is within the larger of the limit and 500, an add keeps it so. |
| `ManagerProperties.StatsContentBound` | src/utils/conversation_manager.py:208-217 | For a bounded window of at most `preserve_recent` messages with no other-kind messages, `total_content_length` is at most `preserve_recent` times that bound. |
| `ManagerProperties.FoldIdempotent` | src/utils/conversation_manager.py:112-117 | With `preserve_recent >= 1` a second fold changes nothing. |
| `ManagerProperties.FoldSummaryNoneIff` | src/utils/conversation_manager.py:121-137 | A fold leaves no summary exactly when the old summary was not truthy and no Human or AI message was folded. |
| `PySeq.FromNegated` | src/utils/conversation_manager.py:116-117 | `s[-k:]` is the last `k` elements for `k >= 1`, but the whole sequence for `k == 0`. |
| `Scenarios.FiveMessagesFoldIntoSummary` | tests/unit/utils/test_conversation_manager.py:73-86 | With limits 3 and 2, five user messages leave the last two in the window. The summary nests the previous summary behind a prefix at each fold and holds the lines of messages 0, 1 and 2. |
| `Scenarios.FiveMessagesSummaryMode` | src/utils/conversation_manager.py:174-179 | In summary mode that run reads as three messages: a System message with the summary header and summary, then messages 3 and 4. |
| `Scenarios.MidSizeMessageStoredWhole` | tests/unit/utils/test_conversation_manager.py:61-71 | With a limit of 100, a 200-character message is stored whole, without a truncation notice. |
| `Scenarios.LongPayloadKeepsTwoHundredAtEachEnd` | tests/unit/utils/test_conversation_manager.py:159-175 | A 2000-character payload is summarized to 428 characters, and the 201st character is not from the payload. |
| `Scenarios.MixedKindsRun` | tests/unit/utils/test_conversation_manager.py:181-198 | System, user, AI, user, AI messages with limits 4 and 2 leave the last two messages. The summary holds the user line and the name-labelled AI line, and has no System line. Summary mode returns three messages. |

## Left out

- Logging: the two `logger.info` calls only have a side effect.
- Message classes: the LangChain classes are replaced by the `Message` datatype,
  and the model covers string payloads only. A list payload skips the ingest check
  in the code and is not modelled. Fields other than content and name (ids,
  extra arguments, tool calls) are not modelled. In the code a rebuilt message
  drops them.
- Names of `System` and other-kind messages are not modelled: ingest drops a
  System message's name, and the fold never reads them.
- `create_conversation_manager` is a constructor wrapper. It is modelled as
  `ConversationManager.New` with `ConversationManager.DefaultConfig` (30, 900000, 5).
- The LLM client module and its configuration loading are not part of this model.
  They are environment and YAML merging and client caching over external libraries.
- Summary growth is unbounded across folds, in the code as in the model. No
  property bounds it.
- `TruncateContent`: no result is stated for a negative limit. The function
  computes Python's slices for it, but a maximum length is never negative in use.
- `Fold`: no result is stated for a negative `preserve_recent`. The function
  computes Python's slices for it, but a negative window is not a meaningful
  configuration.
- `AddMessage`: no window result is stated for a negative `preserve_recent`,
  for the same reason.

=== FILE: content.dfy ===
/** The two pure string reducers of the conversation manager: proportional
    head-and-tail truncation, and the fixed-window summary applied to
    oversized messages when they are added. */
module Content {
  import opened PySeq

  /** Default limits of a conversation manager. */
  const MaxContentLength: int := 900000
  const MaxMessagesBeforeSummary: int := 30
  const SummaryPreserveRecent: int := 5

  /** Placed between the kept head and tail by `TruncateContent` (25 characters). */
  const TruncationNotice: string := "\n...Content truncated...\n"

  /** Placed between the kept head and tail by `SummarizeContent` (28 characters). */
  const SummaryMarker: string := "\n\n...Content summarized...\n\n"

  /** Payloads of at most this many characters are never summarized. */
  const SummaryThreshold: nat := 500

  /** Characters `SummarizeContent` keeps at each end. */
  const SummaryWindow: nat := 200

  /** Length of every summarized payload: both windows and the marker. */
  const SummarizedLength: nat := 428

  lemma MarkerLengths()
    ensures |TruncationNotice| == 25
    ensures |SummaryMarker| == 28
    ensures SummarizedLength == 2 * SummaryWindow + |SummaryMarker|
  {
  }

  /** Bounds `content` by keeping `maxLength / 2` characters (floor division)
      from each end around the truncation notice. When the half is zero the
      Python slice `content[-0:]` keeps the whole content after the notice. */
  function TruncateContent(content: string, maxLength: int): (r: string)
    ensures |content| <= maxLength ==> r == content
    ensures |content| > maxLength >= 2 ==>
      var h := maxLength / 2;
      && r == content[..h] + TruncationNotice + content[|content| - h..]
      && |r| == 2 * h + |TruncationNotice| <= maxLength + |TruncationNotice|
    ensures |content| > maxLength && 0 <= maxLength < 2 ==>
      r == TruncationNotice + content
  {
    if |content| <= maxLength then content
    else
      var half := maxLength / 2;
      Head(content, half) + TruncationNotice + From(content, -half)
  }

  /** Truncating twice with the same limit changes nothing more, as long as the
      limit keeps at least one character at each end. */
  lemma TruncateIdempotent(content: string, maxLength: int)
    requires maxLength >= 2
    ensures TruncateContent(TruncateContent(content, maxLength), maxLength)
         == TruncateContent(content, maxLength)
  {
    var r := TruncateContent(content, maxLength);
    if |content| > maxLength {
      var h := maxLength / 2;
      assert r[..h] == content[..h];
      assert r[|r| - h..] == content[|content| - h..];
    }
  }

  /** With a limit of 0 or 1 the kept half is empty, so each further
      truncation prepends another notice: the result grows without bound. */
  lemma TruncateTinyLimitGrows(content: string, maxLength: int)
    requires 0 <= maxLength < 2 && |content| > maxLength
    ensures TruncateContent(TruncateContent(content, maxLength), maxLength)
         == TruncationNotice + TruncationNotice + content
  {
    MarkerLengths();
  }

  /** Reduces a payload longer than 500 characters to its first and last 200
      characters around the summary marker, whatever limit triggered it. */
  function SummarizeContent(content: string): (r: string)
    ensures |content| <= SummaryThreshold ==> r == content
    ensures |content| > SummaryThreshold ==>
      && r == content[..SummaryWindow] + SummaryMarker + content[|content| - SummaryWindow..]
      && |r| == SummarizedLength < |content|
    ensures |r| <= |content| && |r| <= SummaryThreshold
  {
    if |content| <= SummaryThreshold then content
    else
      Head(content, SummaryWindow) + SummaryMarker + From(content, -(SummaryWindow as int))
  }

  /** A summarized payload is short enough never to be summarized again. */
  lemma SummarizeIdempotent(content: string)
    ensures SummarizeContent(SummarizeContent(content)) == SummarizeContent(content)
  {
  }

  /** Summarizing changes a payload exactly when it is longer than 500
      characters: the summarized form is always shorter than its input. */
  lemma SummarizeChangesIff(content: string)
    ensures SummarizeContent(content) == content <==> |content| <= SummaryThreshold
  {
  }

  /** Only 200 characters of each end survive: the character after the kept
      head is the first character of the marker, a newline. */
  lemma SummarizeKeepsOnlyWindow(content: string)
    requires |content| > SummaryThreshold
    ensures SummarizeContent(content)[SummaryWindow] == '\n'
    ensures SummarizeContent(content)[SummarizedLength - SummaryWindow - 1] == '\n'
  {
    var r := SummarizeContent(content);
    assert r[SummaryWindow] == SummaryMarker[0];
    assert r[SummarizedLength - SummaryWindow - 1] == SummaryMarker[|SummaryMarker| - 1];
  }
}

=== FILE: manager.dfy ===
/** The conversation-history manager: a rolling window of messages plus a
    running extractive summary of everything folded out of the window.

    The manager is a value of type `State`; each mutating operation of the
    original class is a function from the old state to the new one, and each
    reader is a function of the state (so readers cannot change it). */
module ConversationManager {
  import opened PySeq
  import opened Content
  import opened Messages

  /** Limits fixed when the manager is created. None is validated. */
  datatype Config = Config(maxMessages: int, maxContentLength: int, preserveRecent: int)

  const DefaultConfig: Config :=
    Config(MaxMessagesBeforeSummary, MaxContentLength, SummaryPreserveRecent)

  datatype State = State(config: Config, messages: seq<Message>, summary: Option<string>)

  /** A freshly constructed manager: it keeps the given limits and reads as
      empty, with no summary, in both modes. */
  function New(config: Config): (r: State)
    ensures r.config == config
    ensures GetMessages(r, true) == [] && GetMessages(r, false) == []
    ensures GetConversationStats(r)
         == Stats(0, false, 0, 0, config.maxMessages, config.preserveRecent)
  {
    State(config, [], None)
  }

  /** Python truthiness of the optional summary: present and non-empty. */
  predicate Truthy(summary: Option<string>) {
    summary.Some? && summary.value != ""
  }

  const PreviousSummaryPrefix: string := "Previous conversation summary: "
  const SummaryHeader: string := "Conversation Summary:\n"
  const HumanLabel: string := "User"
  const Ellipsis: string := "..."

  /** Characters of a folded payload kept in its summary line. */
  const LineLimit: nat := 200

  // ---------------------------------------------------------------------------
  // Ingest

  /** The message actually stored by `AddMessage`: a System, Human or AI message
      whose payload is longer than `maxContentLength` is rebuilt, with the same
      kind and name, around the summarized payload; anything else is stored as is. */
  function Ingest(m: Message, maxContentLength: int): (r: Message)
    ensures m.Other? ==> r == m
    ensures !m.Other? && |m.content| <= maxContentLength ==> r == m
    ensures !m.Other? && |m.content| > maxContentLength ==>
      r.content == SummarizeContent(m.content)
    ensures m.System? ==> r.System?
    ensures m.Human? ==> r.Human? && r.name == m.name
    ensures m.AI? ==> r.AI? && r.name == m.name
  {
    match m
    case Other(_, _) => m
    case System(c) =>
      if |c| > maxContentLength then System(SummarizeContent(c)) else m
    case Human(c, name) =>
      if |c| > maxContentLength then Human(SummarizeContent(c), name) else m
    case AI(c, name) =>
      if |c| > maxContentLength then AI(SummarizeContent(c), name) else m
  }

  /** Ingest leaves a message alone exactly when it is not System, Human or AI,
      or its payload is within both the configured limit and the 500-character
      summary threshold. In particular a payload between the two is stored
      unshortened although it exceeds the configured limit. */
  lemma IngestUnchangedIff(m: Message, maxContentLength: int)
    ensures Ingest(m, maxContentLength) == m
        <==> m.Other? || |m.content| <= Max(maxContentLength, SummaryThreshold)
  {
  }

  /** What ingest does guarantee about a stored payload: it never grows, and it
      is at most the larger of the configured limit and 500 characters. */
  lemma IngestBound(m: Message, maxContentLength: int)
    ensures |Ingest(m, maxContentLength).content| <= |m.content|
    ensures !m.Other? ==>
      |Ingest(m, maxContentLength).content| <= Max(maxContentLength, SummaryThreshold)
  {
  }

  // ---------------------------------------------------------------------------
  // Fold

  /** A folded payload, cut to 200 characters plus an ellipsis when longer. */
  function Clip(c: string): (r: string)
    ensures |c| <= LineLimit ==> r == c
    ensures |c| > LineLimit ==>
      |r| == LineLimit + |Ellipsis| && r[..LineLimit] == c[..LineLimit] && EndsWith(r, Ellipsis)
  {
    if |c| > LineLimit then Head(c, LineLimit) + Ellipsis else c
  }

  /** Display label of an AI message in the summary. The message classes always
      carry a `name` attribute, so a missing name is formatted as Python's `None`. */
  function Label(name: Option<string>): (r: string)
    ensures name.Some? ==> r == name.value
    ensures name.None? ==> r == "None"
  {
    match name
    case Some(n) => n
    case None => "None"
  }

  /** The summary line of one dialogue message. */
  function SummaryLine(m: Message): (r: string)
    requires m.IsDialogue()
    ensures |r| <= (if m.Human? then |HumanLabel| else |Label(m.name)|) + 2 + LineLimit + |Ellipsis|
  {
    if m.Human? then HumanLabel + ": " + Clip(m.content)
    else Label(m.name) + ": " + Clip(m.content)
  }

  /** A summary line starts with `User: ` or the AI message's label and `: `,
      and ends with the clipped payload. */
  lemma SummaryLineShape(m: Message)
    requires m.IsDialogue()
    ensures m.Human? ==> HumanLabel + ": " <= SummaryLine(m)
    ensures m.AI? ==> Label(m.name) + ": " <= SummaryLine(m)
    ensures EndsWith(SummaryLine(m), Clip(m.content))
    ensures |SummaryLine(m)| == (if m.Human? then |HumanLabel| else |Label(m.name)|) + 2 + |Clip(m.content)|
  {
  }

  /** The lines a fold produces for `ms`, in the way the fold loop visits them:
      System and other messages are skipped. */
  function SummaryLines(ms: seq<Message>): (r: seq<string>)
    ensures |r| <= |ms|
  {
    if ms == [] then []
    else match ms[0]
      case System(_) => SummaryLines(ms[1..])
      case Other(_, _) => SummaryLines(ms[1..])
      case _ => [SummaryLine(ms[0])] + SummaryLines(ms[1..])
  }

  /** The loop's lines are exactly one line per dialogue message, in order. */
  lemma {:induction false} SummaryLinesOfDialogue(ms: seq<Message>)
    ensures |SummaryLines(ms)| == |Dialogue(ms)|
    ensures forall i :: 0 <= i < |Dialogue(ms)| ==>
      SummaryLines(ms)[i] == SummaryLine(Dialogue(ms)[i])
  {
    if ms != [] {
      SummaryLinesOfDialogue(ms[1..]);
      if ms[0].IsDialogue() {
        assert Dialogue(ms) == [ms[0]] + Dialogue(ms[1..]);
        assert SummaryLines(ms) == [SummaryLine(ms[0])] + SummaryLines(ms[1..]);
      } else {
        assert Dialogue(ms) == Dialogue(ms[1..]);
        assert SummaryLines(ms) == SummaryLines(ms[1..]);
      }
    }
  }

  /** The lines of a concatenation are the concatenated lines. */
  lemma {:induction false} SummaryLinesConcat(a: seq<Message>, b: seq<Message>)
    ensures SummaryLines(a + b) == SummaryLines(a) + SummaryLines(b)
  {
    if a == [] {
      assert a + b == b;
    } else {
      assert (a + b)[1..] == a[1..] + b;
      SummaryLinesConcat(a[1..], b);
    }
  }

  /** The summary a fold leaves behind: the previous summary (when truthy) as an
      opening line, then one line per folded dialogue message, joined by
      newlines; `None` when there are no lines at all. */
  function NewSummary(previous: Option<string>, folded: seq<Message>): (r: Option<string>)
    ensures r.None? <==> !Truthy(previous) && Dialogue(folded) == []
    ensures r.Some? ==> r.value != ""
    ensures Truthy(previous) ==> r.Some? && PreviousSummaryPrefix + previous.value <= r.value
    ensures !Truthy(previous) && Dialogue(folded) != [] ==>
      r.Some? && SummaryLine(Dialogue(folded)[0]) <= r.value
    ensures Dialogue(folded) != [] ==>
      r.Some? && EndsWith(r.value, SummaryLine(Dialogue(folded)[|Dialogue(folded)| - 1]))
  {
    SummaryLinesOfDialogue(folded);
    var parts := Opening(previous) + SummaryLines(folded);
    if parts == [] then None
    else
      JoinNonEmpty(parts, "\n", 0);
      JoinEndsWith(parts, "\n");
      Some(Join(parts, "\n"))
  }

  /** The opening line of a fold's summary: the previous summary, when truthy. */
  function Opening(previous: Option<string>): seq<string> {
    if Truthy(previous) then [PreviousSummaryPrefix + previous.value] else []
  }

  /** One summary line per dialogue message of `ms`, in order: a definition by
      filter and map, independent of the loop `SummaryLines`. */
  function DialogueLines(ms: seq<Message>): (r: seq<string>)
    ensures |r| == |Dialogue(ms)|
  {
    var d := Dialogue(ms);
    seq(|d|, i requires 0 <= i < |d| => SummaryLine(d[i]))
  }

  /** The whole summary a fold builds: the opening line, then the line of each
      folded Human or AI message in order, joined by newlines; `None` when there
      are no lines. */
  lemma NewSummaryIsJoin(previous: Option<string>, folded: seq<Message>)
    ensures var parts := Opening(previous) + DialogueLines(folded);
      NewSummary(previous, folded) == if parts == [] then None else Some(Join(parts, "\n"))
  {
    SummaryLinesOfDialogue(folded);
    assert SummaryLines(folded) == DialogueLines(folded);
  }

  /** Without a previous summary, folding two batches at once gives the two
      batches' summaries joined by a newline. */
  lemma NewSummarySplit(a: seq<Message>, b: seq<Message>)
    requires Dialogue(a) != [] && Dialogue(b) != []
    ensures NewSummary(None, a + b) == Some(NewSummary(None, a).value + "\n" + NewSummary(None, b).value)
  {
    SummaryLinesOfDialogue(a);
    SummaryLinesOfDialogue(b);
    SummaryLinesConcat(a, b);
    JoinConcat(SummaryLines(a), SummaryLines(b), "\n");
    NoOpeningSummary(a);
    NoOpeningSummary(b);
    NoOpeningSummary(a + b);
  }

  /** Without a previous summary the summary is the join of the loop's lines. */
  lemma NoOpeningSummary(ms: seq<Message>)
    requires SummaryLines(ms) != []
    ensures NewSummary(None, ms) == Some(Join(SummaryLines(ms), "\n"))
  {
    assert Opening(None) + SummaryLines(ms) == SummaryLines(ms);
  }

  /** Folds everything but the last `preserveRecent` messages into the summary.
      The partition uses Python slices, so `preserveRecent == 0` keeps every
      message and only rewrites the summary. */
  function Fold(s: State): (r: State)
    ensures r.config == s.config
    ensures |s.messages| <= s.config.preserveRecent ==> r == s
    ensures |s.messages| > s.config.preserveRecent >= 1 ==>
      var cut := |s.messages| - s.config.preserveRecent;
      && r.messages == s.messages[cut..]
      && r.summary == NewSummary(s.summary, s.messages[..cut])
    ensures |s.messages| > s.config.preserveRecent == 0 ==>
      r.messages == s.messages && r.summary == NewSummary(s.summary, [])
  {
    if |s.messages| <= s.config.preserveRecent then s
    else
      var p := s.config.preserveRecent;
      State(s.config, From(s.messages, -p), NewSummary(s.summary, Head(s.messages, -p)))
  }

  // ---------------------------------------------------------------------------
  // Add

  /** Stores a message: ingest it, fold first if the window already holds
      `maxMessages`, append it, then fold again if the window exceeds
      `preserveRecent`. */
  function AddMessage(s: State, m: Message): (r: State)
    ensures r.config == s.config
    ensures s.config.preserveRecent >= 1 ==>
      r.messages == LastN(s.messages + [Ingest(m, s.config.maxContentLength)], s.config.preserveRecent)
  {
    var p := s.config.preserveRecent;
    var incoming := Ingest(m, s.config.maxContentLength);
    var before := if |s.messages| >= s.config.maxMessages then Fold(s) else s;
    var appended := before.(messages := before.messages + [incoming]);
    var r := if |appended.messages| > p then Fold(appended) else appended;
    assert p >= 1 ==> r.messages == LastN(s.messages + [incoming], p) by {
      if p >= 1 {
        if |s.messages| >= s.config.maxMessages {
          FoldKeepsLastN(s);
          LastNAppend(s.messages, [incoming], p);
        }
        FoldKeepsLastN(appended);
      }
    }
    r
  }

  /** With `preserveRecent >= 1` a fold, whether or not it fires, leaves the
      last `preserveRecent` messages. */
  lemma FoldKeepsLastN(s: State)
    requires s.config.preserveRecent >= 1
    ensures Fold(s).messages == LastN(s.messages, s.config.preserveRecent)
  {
  }

  /** After an add the window holds between one and `preserveRecent` messages,
      and the newest is the ingested message, whatever the state before. */
  lemma AddMessageWindow(s: State, m: Message)
    requires s.config.preserveRecent >= 1
    ensures var r := AddMessage(s, m);
      && 1 <= |r.messages| <= s.config.preserveRecent
      && r.messages[|r.messages| - 1] == Ingest(m, s.config.maxContentLength)
  {
  }

  /** With `preserveRecent == 0` the Python slice `messages[-0:]` keeps every
      message, so the window only ever grows. */
  lemma AddMessageZeroPreserve(s: State, m: Message)
    requires s.config.preserveRecent == 0
    ensures AddMessage(s, m).messages == s.messages + [Ingest(m, s.config.maxContentLength)]
  {
  }

  /** An add never erases a non-empty summary: every fold keeps it as its
      opening line. */
  lemma AddMessageKeepsSummary(s: State, m: Message)
    requires Truthy(s.summary)
    ensures Truthy(AddMessage(s, m).summary)
  {
  }

  /** Below `preserveRecent` an add only appends the ingested message: the
      pre-append fold, if `maxMessages` calls it, finds nothing to fold. */
  lemma AddMessageWithoutFold(s: State, m: Message)
    requires |s.messages| < s.config.preserveRecent
    ensures AddMessage(s, m) == s.(messages := s.messages + [Ingest(m, s.config.maxContentLength)])
  {
  }

  // ---------------------------------------------------------------------------
  // Readers and reset

  /** The window, preceded in summary mode by a System message carrying the
      summary under a header when there is a non-empty summary. */
  function GetMessages(s: State, summaryMode: bool): (r: seq<Message>)
    ensures |r| == |s.messages| + (if summaryMode && Truthy(s.summary) then 1 else 0)
    ensures r[|r| - |s.messages|..] == s.messages
    ensures |r| > |s.messages| ==>
      && r[0].System?
      && SummaryHeader <= r[0].content
      && r[0].content[|SummaryHeader|..] == s.summary.value
  {
    if !summaryMode || !Truthy(s.summary) then s.messages
    else [System(SummaryHeader + s.summary.value)] + s.messages
  }

  /** The last `count` messages of the window, or none for `count <= 0`. */
  function GetRecentMessages(s: State, count: int): (r: seq<Message>)
    ensures |r| == (if count <= 0 then 0 else Min(count, |s.messages|))
    ensures r == s.messages[|s.messages| - |r|..]
  {
    if count > 0 then From(s.messages, -count) else []
  }

  /** Forgets the window and the summary; the limits stay. */
  function Clear(s: State): (r: State)
    ensures r == New(s.config)
  {
    s.(messages := [], summary := None)
  }

  datatype Stats = Stats(
    totalMessages: nat,
    hasSummary: bool,
    summaryLength: nat,
    totalContentLength: nat,
    maxMessagesThreshold: int,
    preserveRecentCount: int)

  /** Counters describing the current state, in terms of what the readers
      return: the window's size and payload, the summary's length as carried by
      the summary-mode header, and the configured limits. */
  function GetConversationStats(s: State): (r: Stats)
    ensures r.totalMessages == |GetMessages(s, false)|
    ensures r.hasSummary <==> s.summary.Some?
    ensures r.summaryLength == 0 <==> !Truthy(s.summary)
    ensures Truthy(s.summary) ==>
      r.summaryLength + |SummaryHeader| == |GetMessages(s, true)[0].content|
    ensures r.totalContentLength == TotalContentLength(GetMessages(s, false))
    ensures r.totalMessages == 0 ==> r.totalContentLength == 0
    ensures forall i :: 0 <= i < |s.messages| ==> |s.messages[i].content| <= r.totalContentLength
    ensures r.maxMessagesThreshold == s.config.maxMessages
    ensures r.preserveRecentCount == s.config.preserveRecent
  {
    Stats(
      |s.messages|,
      s.summary.Some?,
      if Truthy(s.summary) then |s.summary.value| else 0,
      TotalContentLength(s.messages),
      s.config.maxMessages,
      s.config.preserveRecent)
  }
}

=== FILE: message.dfy ===
/** Chat messages as the conversation manager sees them. */
module Messages {

  datatype Option<+T> = None | Some(value: T)

  /** A chat message with a text payload. Human and AI messages carry an
      optional display name; `Other` stands for every other message class
      (tool results, function calls, ...), which the manager stores but never
      rewrites or summarizes. */
  datatype Message =
    | System(content: string)
    | Human(content: string, name: Option<string>)
    | AI(content: string, name: Option<string>)
    | Other(kind: string, content: string)
  {
    /** Human and AI messages are the ones a fold turns into summary lines. */
    predicate IsDialogue() {
      Human? || AI?
    }
  }

  /** The dialogue messages of `ms`, in order. */
  function Dialogue(ms: seq<Message>): (r: seq<Message>)
    ensures |r| <= |ms|
    ensures forall i :: 0 <= i < |r| ==> r[i].IsDialogue()
  {
    if ms == [] then []
    else (if ms[0].IsDialogue() then [ms[0]] else []) + Dialogue(ms[1..])
  }

  /** The filter keeps every dialogue message: filtering a concatenation
      filters each part, so together with `DialogueOfOne` it keeps exactly the
      Human and AI messages, in order. */
  lemma {:induction false} DialogueConcat(a: seq<Message>, b: seq<Message>)
    ensures Dialogue(a + b) == Dialogue(a) + Dialogue(b)
  {
    if a == [] {
      assert a + b == b;
    } else {
      assert (a + b)[1..] == a[1..] + b;
      DialogueConcat(a[1..], b);
    }
  }

  /** A single message is kept exactly when it is a dialogue message. */
  lemma DialogueOfOne(m: Message)
    ensures Dialogue([m]) == if m.IsDialogue() then [m] else []
  {
    assert [m][1..] == [];
  }

  /** Sum of the payload lengths of `ms`. */
  function TotalContentLength(ms: seq<Message>): (r: nat)
    ensures ms == [] ==> r == 0
    ensures |ms| == 1 ==> r == |ms[0].content|
    ensures forall i :: 0 <= i < |ms| ==> |ms[i].content| <= r
  {
    if ms == [] then 0 else |ms[0].content| + TotalContentLength(ms[1..])
  }

  /** The total of a concatenation is the sum of the totals. */
  lemma {:induction false} TotalContentLengthConcat(a: seq<Message>, b: seq<Message>)
    ensures TotalContentLength(a + b) == TotalContentLength(a) + TotalContentLength(b)
  {
    if a == [] {
      assert a + b == b;
    } else {
      assert (a + b)[1..] == a[1..] + b;
      TotalContentLengthConcat(a[1..], b);
    }
  }

  /** When every payload is at most `bound` long, the total is at most
      `bound` per message. */
  lemma {:induction false} TotalContentLengthBound(ms: seq<Message>, bound: nat)
    requires forall i :: 0 <= i < |ms| ==> |ms[i].content| <= bound
    ensures TotalContentLength(ms) <= |ms| * bound
  {
    if ms != [] {
      TotalContentLengthBound(ms[1..], bound);
    }
  }
}

=== FILE: properties.dfy ===
/** Properties of the conversation manager over whole sequences of calls:
    the window after any run of adds, the payload bound the adds keep, and
    the reset. */
module ManagerProperties {
  import opened PySeq
  import opened Content
  import opened Messages
  import opened ConversationManager

  /** Adds `ms` one after the other, in order. */
  function AddAll(s: State, ms: seq<Message>): State
    decreases |ms|
  {
    if ms == [] then s else AddAll(AddMessage(s, ms[0]), ms[1..])
  }

  /** The messages `ms` as ingest stores them. */
  function IngestAll(ms: seq<Message>, maxContentLength: int): (r: seq<Message>)
    ensures |r| == |ms|
    ensures forall i :: 0 <= i < |ms| ==> r[i] == Ingest(ms[i], maxContentLength)
  {
    if ms == [] then [] else [Ingest(ms[0], maxContentLength)] + IngestAll(ms[1..], maxContentLength)
  }

  /** After any run of adds the window is exactly the last `preserveRecent`
      messages of everything stored so far, in order: folds drop the oldest
      messages and nothing else. */
  lemma {:induction false} AddAllWindow(s: State, ms: seq<Message>)
    requires s.config.preserveRecent >= 1 && |s.messages| <= s.config.preserveRecent
    ensures AddAll(s, ms).config == s.config
    ensures AddAll(s, ms).messages
         == LastN(s.messages + IngestAll(ms, s.config.maxContentLength), s.config.preserveRecent)
    decreases |ms|
  {
    var p := s.config.preserveRecent;
    var limit := s.config.maxContentLength;
    if ms == [] {
      assert s.messages + IngestAll(ms, limit) == s.messages;
    } else {
      var incoming := Ingest(ms[0], limit);
      var rest := IngestAll(ms[1..], limit);
      var next := AddMessage(s, ms[0]);
      var stored := s.messages + [incoming];
      assert next.messages == LastN(stored, p) && next.config == s.config;
      assert AddAll(s, ms) == AddAll(next, ms[1..]);
      AddAllWindow(next, ms[1..]);
      LastNAppend(stored, rest, p);
      IngestAllAfter(s.messages, ms, limit);
    }
  }

  lemma IngestAllAfter(prefix: seq<Message>, ms: seq<Message>, limit: int)
    requires ms != []
    ensures prefix + [Ingest(ms[0], limit)] + IngestAll(ms[1..], limit) == prefix + IngestAll(ms, limit)
  {
    assert IngestAll(ms, limit) == [Ingest(ms[0], limit)] + IngestAll(ms[1..], limit);
  }

  /** A fresh manager fed `ms` holds the last `preserveRecent` of them, ingested. */
  lemma FreshWindow(config: Config, ms: seq<Message>)
    requires config.preserveRecent >= 1
    ensures AddAll(New(config), ms).messages
         == LastN(IngestAll(ms, config.maxContentLength), config.preserveRecent)
  {
    AddAllWindow(New(config), ms);
    assert New(config).messages + IngestAll(ms, config.maxContentLength)
        == IngestAll(ms, config.maxContentLength);
  }

  /** Once the window is full, each add folds exactly the oldest message into
      the summary and appends the new one, whatever `maxMessages` is. */
  lemma AddMessageSteadyState(s: State, m: Message)
    requires 1 <= s.config.preserveRecent == |s.messages|
    ensures AddMessage(s, m) == State(s.config,
      s.messages[1..] + [Ingest(m, s.config.maxContentLength)],
      NewSummary(s.summary, [s.messages[0]]))
  {
    var all := s.messages + [Ingest(m, s.config.maxContentLength)];
    assert all[..1] == [s.messages[0]];
    assert all[1..] == s.messages[1..] + [Ingest(m, s.config.maxContentLength)];
  }

  /** In every state a run of adds can reach, an add changes the summary only
      by folding the oldest message, and only when the window is full. */
  lemma AddMessageSummary(s: State, m: Message)
    requires 1 <= s.config.preserveRecent && |s.messages| <= s.config.preserveRecent
    ensures AddMessage(s, m).summary
         == if |s.messages| == s.config.preserveRecent then NewSummary(s.summary, [s.messages[0]])
            else s.summary
  {
    if |s.messages| == s.config.preserveRecent {
      AddMessageSteadyState(s, m);
    }
  }

  /** Folding a single message: a dialogue message adds its line after the
      previous summary's line; any other message leaves only the previous
      summary's line, or no summary at all. */
  lemma NewSummaryOfOneMessage(previous: Option<string>, m: Message)
    ensures m.IsDialogue() ==> NewSummary(previous, [m]) == Some(
      if Truthy(previous) then PreviousSummaryPrefix + previous.value + "\n" + SummaryLine(m)
      else SummaryLine(m))
    ensures !m.IsDialogue() ==>
      NewSummary(previous, [m]) == (if Truthy(previous) then Some(PreviousSummaryPrefix + previous.value) else None)
  {
    var folded := [m];
    assert folded[1..] == [];
    assert SummaryLines(folded) == if m.IsDialogue() then [SummaryLine(m)] else [];
    if Truthy(previous) && m.IsDialogue() {
      var parts := [PreviousSummaryPrefix + previous.value] + SummaryLines(folded);
      assert parts[1..] == SummaryLines(folded);
      assert Join(parts, "\n") == parts[0] + "\n" + Join(parts[1..], "\n");
      assert NewSummary(previous, folded) == Some(Join(parts, "\n"));
    }
  }

  /** Asking for up to `preserveRecent` recent messages after any run of adds
      yields the last ones of everything stored, in order. */
  lemma RecentAfterRun(s: State, ms: seq<Message>, count: int)
    requires 1 <= count <= s.config.preserveRecent && |s.messages| <= s.config.preserveRecent
    ensures GetRecentMessages(AddAll(s, ms), count)
         == LastN(s.messages + IngestAll(ms, s.config.maxContentLength), count)
  {
    var all := s.messages + IngestAll(ms, s.config.maxContentLength);
    AddAllWindow(s, ms);
    LastNOfLastN(all, s.config.preserveRecent, count);
  }

  /** The most recent message after an add is the ingested message. */
  lemma RecentAfterAdd(s: State, m: Message)
    requires s.config.preserveRecent >= 1
    ensures GetRecentMessages(AddMessage(s, m), 1) == [Ingest(m, s.config.maxContentLength)]
  {
    AddMessageWindow(s, m);
  }

  /** Every stored System, Human or AI payload is within the larger of the
      configured limit and the 500-character summary threshold. */
  predicate PayloadsBounded(s: State) {
    forall i :: 0 <= i < |s.messages| && !s.messages[i].Other? ==>
      |s.messages[i].content| <= Max(s.config.maxContentLength, SummaryThreshold)
  }

  /** Adds keep payloads bounded: the window only holds messages that were
      already stored and the newly ingested one. */
  lemma AddMessagePreservesBound(s: State, m: Message)
    requires s.config.preserveRecent >= 1
    requires PayloadsBounded(s)
    ensures PayloadsBounded(AddMessage(s, m))
  {
    var bound := Max(s.config.maxContentLength, SummaryThreshold);
    var incoming := Ingest(m, s.config.maxContentLength);
    var all := s.messages + [incoming];
    var window := AddMessage(s, m).messages;
    IngestBound(m, s.config.maxContentLength);
    var k := |all| - |window|;
    assert window == all[k..];
    forall i | 0 <= i < |window| && !window[i].Other?
      ensures |window[i].content| <= bound
    {
      assert window[i] == all[k + i];
      if k + i < |s.messages| {
        assert all[k + i] == s.messages[k + i];
      } else {
        assert all[k + i] == incoming;
      }
    }
  }

  /** The context a manager hands on is bounded: with no other-kind messages,
      the window's total payload is at most `preserveRecent` times the
      per-message bound. */
  lemma StatsContentBound(s: State)
    requires s.config.preserveRecent >= 1 && |s.messages| <= s.config.preserveRecent
    requires PayloadsBounded(s)
    requires forall i :: 0 <= i < |s.messages| ==> !s.messages[i].Other?
    ensures GetConversationStats(s).totalMessages <= s.config.preserveRecent
    ensures GetConversationStats(s).totalContentLength
         <= s.config.preserveRecent * Max(s.config.maxContentLength, SummaryThreshold)
  {
    var bound := Max(s.config.maxContentLength, SummaryThreshold);
    assert forall i :: 0 <= i < |s.messages| ==> |s.messages[i].content| <= bound;
    TotalContentLengthBound(s.messages, bound);
    MulMono(|s.messages|, s.config.preserveRecent, bound);
    assert GetConversationStats(s).totalContentLength == TotalContentLength(s.messages);
  }

  lemma MulMono(a: nat, b: nat, c: nat)
    requires a <= b
    ensures a * c <= b * c
  {
  }

  /** Below `preserveRecent` an add raises the message count by one and the
      total payload by the ingested payload, and leaves the summary counters
      and limits as they were. */
  lemma StatsAfterPlainAdd(s: State, m: Message)
    requires |s.messages| < s.config.preserveRecent
    ensures var before := GetConversationStats(s);
      var after := GetConversationStats(AddMessage(s, m));
      && after.totalMessages == before.totalMessages + 1
      && after.totalContentLength
         == before.totalContentLength + |Ingest(m, s.config.maxContentLength).content|
      && after.hasSummary == before.hasSummary
      && after.summaryLength == before.summaryLength
      && after.maxMessagesThreshold == before.maxMessagesThreshold
      && after.preserveRecentCount == before.preserveRecentCount
  {
    AddMessageWithoutFold(s, m);
    TotalContentLengthConcat(s.messages, [Ingest(m, s.config.maxContentLength)]);
  }

  /** A fold that happened is not repeated: the second fold finds only
      `preserveRecent` messages left. */
  lemma FoldIdempotent(s: State)
    requires s.config.preserveRecent >= 1
    ensures Fold(Fold(s)) == Fold(s)
  {
  }

  /** A fold returns `None` only when there was no summary worth keeping and no
      Human or AI message among the folded ones. */
  lemma FoldSummaryNoneIff(s: State)
    requires |s.messages| > s.config.preserveRecent >= 1
    ensures var cut := |s.messages| - s.config.preserveRecent;
      Fold(s).summary.None? <==> !Truthy(s.summary) && Dialogue(s.messages[..cut]) == []
  {
  }

  /** Clearing resets to a fresh manager with the same limits, reads as empty in
      both modes, and clearing again changes nothing. */
  lemma ClearResets(s: State, summaryMode: bool)
    ensures Clear(s) == New(s.config)
    ensures Clear(Clear(s)) == Clear(s)
    ensures GetMessages(Clear(s), summaryMode) == []
    ensures GetConversationStats(Clear(s)).totalContentLength == 0
    ensures !GetConversationStats(Clear(s)).hasSummary
    ensures PayloadsBounded(Clear(s))
  {
    var c := Clear(s);
    assert c == New(s.config);
    assert c.messages == [];
  }
}

=== FILE: py_seq.dfy ===
/** Python's sequence slicing and `str.join`, stated over Dafny sequences.

    Python slice bounds may be negative (counting from the end) and may lie
    outside the sequence (they are clamped). The conversation manager relies on
    both, including the corner case `x[-0:]`, which is the whole of `x`. */
module PySeq {

  function Min(a: int, b: int): int { if a <= b then a else b }

  function Max(a: int, b: int): int { if a >= b then a else b }

  /** The position a Python slice bound `k` denotes in a sequence of length `n`. */
  function Bound(n: nat, k: int): (i: nat)
    ensures i <= n
    ensures 0 <= k ==> i == Min(k, n)
    ensures k < 0 ==> i == Max(0, n + k)
  {
    if k < 0 then (if n + k < 0 then 0 else n + k)
    else if k <= n then k else n
  }

  /** `s[:k]` */
  function Head<T>(s: seq<T>, k: int): (r: seq<T>)
    ensures |r| <= |s| && r == s[..|r|]
  {
    s[..Bound(|s|, k)]
  }

  /** `s[k:]` */
  function From<T>(s: seq<T>, k: int): (r: seq<T>)
    ensures |r| <= |s| && r == s[|s| - |r|..]
  {
    s[Bound(|s|, k)..]
  }

  /** `s[-k:]` is the last `k` elements for `k >= 1`, but the whole of `s` for `k == 0`. */
  lemma FromNegated<T>(s: seq<T>, k: nat)
    ensures k == 0 ==> From(s, -(k as int)) == s
    ensures 1 <= k ==> From(s, -(k as int)) == s[|s| - Min(k, |s|)..]
  {
  }

  /** The last `n` elements of `s`, or all of `s` when it is shorter. */
  function LastN<T>(s: seq<T>, n: nat): (r: seq<T>)
    ensures |r| == Min(n, |s|)
    ensures r == s[|s| - |r|..]
  {
    if |s| <= n then s else s[|s| - n..]
  }

  /** Taking the last `n` twice, with elements appended in between, is the
      same as taking the last `n` once at the end. */
  lemma LastNAppend<T>(s: seq<T>, t: seq<T>, n: nat)
    ensures LastN(LastN(s, n) + t, n) == LastN(s + t, n)
  {
    var u := LastN(s, n) + t;
    var v := s + t;
    assert u == v[|v| - |u|..];
  }

  /** The last `m` of the last `n` are the last `m`, for `m <= n`. */
  lemma LastNOfLastN<T>(s: seq<T>, n: nat, m: nat)
    requires m <= n
    ensures LastN(LastN(s, n), m) == LastN(s, m)
  {
  }

  /** `s.endswith(suffix)` */
  predicate EndsWith<T(==)>(s: seq<T>, suffix: seq<T>) {
    |suffix| <= |s| && s[|s| - |suffix|..] == suffix
  }

  /** `sep.join(parts)` */
  function Join(parts: seq<string>, sep: string): (r: string)
    ensures parts == [] ==> r == ""
    ensures |parts| >= 1 ==> parts[0] <= r
  {
    if |parts| == 0 then ""
    else if |parts| == 1 then parts[0]
    else parts[0] + sep + Join(parts[1..], sep)
  }

  /** Joining a concatenation joins the two joins with one more separator. */
  lemma {:induction false} JoinConcat(a: seq<string>, b: seq<string>, sep: string)
    requires a != [] && b != []
    ensures Join(a + b, sep) == Join(a, sep) + sep + Join(b, sep)
  {
    if |a| == 1 {
      assert (a + b)[1..] == b;
    } else {
      JoinConcat(a[1..], b, sep);
      assert (a + b)[1..] == a[1..] + b;
    }
  }

  /** The last part is a suffix of the join. */
  lemma {:induction false} JoinEndsWith(parts: seq<string>, sep: string)
    requires parts != []
    ensures EndsWith(Join(parts, sep), parts[|parts| - 1])
  {
    if |parts| > 1 {
      JoinEndsWith(parts[1..], sep);
    }
  }

  /** A join of parts of which at least one is non-empty is non-empty. */
  lemma {:induction false} JoinNonEmpty(parts: seq<string>, sep: string, i: nat)
    requires i < |parts| && parts[i] != ""
    ensures Join(parts, sep) != ""
  {
    if i > 0 {
      JoinNonEmpty(parts[1..], sep, i - 1);
    }
  }
}

=== FILE: scenarios.dfy ===
/** Concrete runs of the conversation manager in the situations the
    repository's unit tests set up, with the outcome the code produces. */
module Scenarios {
  import opened PySeq
  import opened Content
  import opened Messages
  import opened ConversationManager
  import opened ManagerProperties

  function User(text: string): Message {
    Human(text, None)
  }

  // ---------------------------------------------------------------------------
  // Five user messages, maxMessages 3, preserveRecent 2

  const Cfg3x2: Config := Config(3, MaxContentLength, 2)

  const Line0: string := HumanLabel + ": " + "Message 0"
  const Line1: string := HumanLabel + ": " + "Message 1"
  const Line2: string := HumanLabel + ": " + "Message 2"

  const Run2: State := State(Cfg3x2, [User("Message 0"), User("Message 1")], None)
  const Run3: State := State(Cfg3x2, [User("Message 1"), User("Message 2")], Some(Line0))
  const Run4: State := State(Cfg3x2, [User("Message 2"), User("Message 3")],
    Some(PreviousSummaryPrefix + Line0 + "\n" + Line1))
  const Run5: State := State(Cfg3x2, [User("Message 3"), User("Message 4")],
    Some(PreviousSummaryPrefix + (PreviousSummaryPrefix + Line0 + "\n" + Line1) + "\n" + Line2))

  /** One add in a full window of two, below `maxMessages`. */
  lemma SteadyAdd(s: State, m: Message)
    requires 1 <= s.config.preserveRecent == |s.messages|
    requires s.messages[0].IsDialogue()
    requires |m.content| <= s.config.maxContentLength
    ensures AddMessage(s, m) == State(s.config, s.messages[1..] + [m], Some(
      if Truthy(s.summary) then PreviousSummaryPrefix + s.summary.value + "\n" + SummaryLine(s.messages[0])
      else SummaryLine(s.messages[0])))
  {
    AddMessageSteadyState(s, m);
    NewSummaryOfOneMessage(s.summary, s.messages[0]);
  }

  lemma FirstTwoAddsOnlyAppend()
    ensures AddMessage(AddMessage(New(Cfg3x2), User("Message 0")), User("Message 1")) == Run2
  {
    var s0 := New(Cfg3x2);
    AddMessageWithoutFold(s0, User("Message 0"));
    AddMessageWithoutFold(AddMessage(s0, User("Message 0")), User("Message 1"));
  }

  lemma ThirdAddFoldsFirst()
    ensures AddMessage(Run2, User("Message 2")) == Run3
  {
    SteadyAdd(Run2, User("Message 2"));
  }

  lemma FourthAddNestsSummary()
    ensures AddMessage(Run3, User("Message 3")) == Run4
  {
    SteadyAdd(Run3, User("Message 3"));
    assert Line0 != [];
  }

  lemma FifthAddNestsSummary()
    ensures AddMessage(Run4, User("Message 4")) == Run5
  {
    SteadyAdd(Run4, User("Message 4"));
    assert Run4.summary.value != [];
  }

  /** Five numbered user messages with `maxMessages == 3` and
      `preserveRecent == 2`: the window ends with the last two, and the three
      folded ones are in the summary, each later fold nesting the previous
      summary behind its own prefix (the state `Run5`). */
  lemma FiveMessagesFoldIntoSummary()
    ensures AddMessage(AddMessage(AddMessage(AddMessage(AddMessage(New(Cfg3x2),
      User("Message 0")), User("Message 1")), User("Message 2")), User("Message 3")), User("Message 4"))
      == Run5
  {
    FirstTwoAddsOnlyAppend();
    ThirdAddFoldsFirst();
    FourthAddNestsSummary();
    FifthAddNestsSummary();
  }

  /** In summary mode the run's window comes after one System message that
      carries the summary. */
  lemma FiveMessagesSummaryMode()
    ensures GetMessages(Run5, true)
         == [System(SummaryHeader + Run5.summary.value), User("Message 3"), User("Message 4")]
  {
    assert Run5.summary.value != [];
  }

  // ---------------------------------------------------------------------------
  // Oversized payloads

  /** A 200-character message with a limit of 100 is stored whole: the payload
      is over the configured limit but not over the 500-character summary
      threshold, so no notice is inserted and nothing is shortened. */
  lemma MidSizeMessageStoredWhole(text: string, name: Option<string>)
    requires |text| == 200
    ensures AddMessage(New(Config(MaxMessagesBeforeSummary, 100, SummaryPreserveRecent)), Human(text, name)).messages
         == [Human(text, name)]
  {
    var s0 := New(Config(MaxMessagesBeforeSummary, 100, SummaryPreserveRecent));
    AddMessageWithoutFold(s0, Human(text, name));
    IngestUnchangedIff(Human(text, name), 100);
  }

  /** A 2000-character payload keeps only its first and last 200 characters:
      a 400-character run of its first character cannot start the result. */
  lemma LongPayloadKeepsTwoHundredAtEachEnd(text: string)
    requires |text| == 2000
    requires forall i :: 0 <= i < |text| ==> text[i] == 'A'
    ensures |SummarizeContent(text)| == 428
    ensures SummarizeContent(text)[..200] == text[..200]
    ensures SummarizeContent(text)[200] != 'A'
  {
    SummarizeKeepsOnlyWindow(text);
  }

  // ---------------------------------------------------------------------------
  // Mixed message kinds, maxMessages 4, preserveRecent 2

  const Cfg4x2: Config := Config(4, MaxContentLength, 2)

  const Setup: Message := System("System initialization")
  const Question: Message := User("User question")
  const Answer: Message := AI("AI response", Some("assistant"))
  const FollowUp: Message := User("Follow-up question")
  const Final: Message := AI("Final response", Some("researcher"))

  const Mixed2: State := State(Cfg4x2, [Setup, Question], None)
  const Mixed3: State := State(Cfg4x2, [Question, Answer], None)
  const Mixed4: State := State(Cfg4x2, [Answer, FollowUp], Some(SummaryLine(Question)))
  const Mixed5: State := State(Cfg4x2, [FollowUp, Final],
    Some(PreviousSummaryPrefix + SummaryLine(Question) + "\n" + SummaryLine(Answer)))

  lemma MixedFirstTwo()
    ensures AddMessage(AddMessage(New(Cfg4x2), Setup), Question) == Mixed2
  {
    var s0 := New(Cfg4x2);
    AddMessageWithoutFold(s0, Setup);
    AddMessageWithoutFold(AddMessage(s0, Setup), Question);
  }

  /** Folding only the System message leaves no summary. */
  lemma MixedThird()
    ensures AddMessage(Mixed2, Answer) == Mixed3
  {
    AddMessageSteadyState(Mixed2, Answer);
    NewSummaryOfOneMessage(None, Setup);
  }

  lemma MixedFourth()
    ensures AddMessage(Mixed3, FollowUp) == Mixed4
  {
    SteadyAdd(Mixed3, FollowUp);
  }

  lemma MixedFifth()
    ensures AddMessage(Mixed4, Final) == Mixed5
  {
    SteadyAdd(Mixed4, Final);
    assert SummaryLine(Question) != [];
  }

  /** System, user, AI, user, AI with `maxMessages == 4` and
      `preserveRecent == 2`: the System message vanishes without a line, the
      AI message is labelled by its name (the state `Mixed5`), and summary
      mode adds one message. */
  lemma MixedKindsRun()
    ensures AddMessage(AddMessage(AddMessage(AddMessage(AddMessage(New(Cfg4x2),
      Setup), Question), Answer), FollowUp), Final) == Mixed5
    ensures |GetMessages(Mixed5, true)| == 3
  {
    MixedFirstTwo();
    MixedThird();
    MixedFourth();
    MixedFifth();
    assert Mixed5.summary.value != [];
  }

  /** The labels the run above puts in its summary. */
  lemma MixedKindsLabels()
    ensures SummaryLine(Question) == "User: User question"
    ensures SummaryLine(Answer) == "assistant: AI response"
  {
  }
}
